=== FILE: README.md ===
# mongoose-archiver, modelled in Dafny

`mongooseArchiver` is a Mongoose schema plugin. It keeps a history of the
documents of a tracked model. Before a `findOneAndUpdate`, `updateMany` or
`updateOne` runs, a pre hook fetches one document, the first that
`findOne(this.getQuery())` returns, and saves
a copy of it through the `<modelName>_history` model. The copy gets a fresh
`_id`, an `origin` pointing at the document, a `version` (the origin's record
count + 1), `archivedAt` and `archivedBy`. Before a `deleteOne`, `deleteMany`
or `findOneAndDelete`, a terminal copy is saved the same way. That copy keeps
the document's own `_id`, its `version` is the record count (no increment),
and it carries `archivedAt`/`archivedBy` and `deletedAt`/`deletedBy`. Any
failure inside a hook is passed to `next(error)`, so the mutation does not
run.

The repository ships the plugin four times:

- `src/index.ts` clones the schema, clears every required flag, takes the
  actor from a configurable document field first, and uses the query's
  connection.
- `index.ts` builds the history schema from `schema.obj` with timestamps off
  and registers the history model on the global mongoose connection.
- `index.js` clones the schema without clearing required flags and uses the
  query's connection.
- `lib/index.js` is TypeScript compiler output (`exports.default`,
  `mongoose_1`, `__awaiter`), compiled from a TypeScript version with
  `index.js`'s logic: `async` is lowered to a generator and `?.` to explicit
  `null`/`void 0` tests.

## Layout

- `js_value.dfy` (`JsValue`): the JavaScript values the hooks touch.
  - Truthiness and optional chaining.
  - `||` and its reference meaning, "first truthy operand, else the last".
  - Object spread `{ ...base, k: v }`.
  - Coercion of the key `options?.userField`.
- `documents.dfy` (`Documents`): the tracked documents.
  - `findOne` returns the first match in natural order.
  - `toObject()`.
  - The history collection is a sequence of records; `countDocuments({ origin })` counts over it.
- `attribution.dfy` (`Attribution`): the `archivedBy`/`deletedBy` expression of each variant, and lemmas giving each its first-truthy meaning.
- `schemas.dfy` (`Schemas`): the schema object as a class, with `clone`, `add` and `pre`, and the archive fields every variant adds.
- `hooks.dfy` (`Hooks`): the shared hook flow.
  - The pure step functions `UpdateStep` and `DeleteStep`.
  - The records they save.
  - The class `ArchiveStore`, whose methods `OnUpdate` and `OnDelete` run the hooks against the registered history models and collections and are proved against the step functions.
  - The registration loops.
- `hook_properties.dfy` (`HookProperties`): what the hooks guarantee for every variant.
  - Fail-closed behaviour.
  - The shape of the snapshots.
  - Version numbering over any sequence of updates and deletes.
- `src_index.dfy`, `root_index_ts.dfy`, `root_index_js.dfy`, `lib_index.dfy`: one module per variant. Each holds the history schema preparation, the plugin entry point and the properties that set the variant apart.

Outside behaviour enters as parameters:

- The driver's outcomes are a `Driver(findOk, countOk, saveOk)`: whether `findOne`, `countDocuments` and `save` resolve.
- `new Date()` is a clock reading, an `int`.
- `new Types.ObjectId()` is a fresh id.

## Behaviour worth knowing

- **A filter that matches nothing aborts the mutation.** `findOne` may resolve to `null`. The hook then calls `.toObject()` on it, which throws inside the `try`. So the hook ends in `next(error)` with `NullDocument`, and the mutation is aborted. The `if (docToUpdate)` guard after it never sees a falsy value.
- **Required flags.** Only `src/index.ts` clears them. `index.js` and `lib/index.js` clone them unchanged, and `index.ts` keeps those of `schema.obj`. Nothing strips `unique`, and nothing recurses into nested schemas.
- **The delete record takes two clock readings.** It calls `new Date()` twice, so `archivedAt` and `deletedAt` may differ.
- **The actor order.**
  - Update: the document's user field (only in `src/index.ts`), then the payload's `updatedBy`, `$set.updatedBy` and `createdBy`.
  - Delete: the document's user field, then `updatedBy`, then `createdBy`.
  - When no operand is truthy, `||` yields its last operand (`null`, `0`, `""`…).
- **An unset `userField` reads the key `"undefined"`.** `docToUpdate?.[undefined]` reads the property named `"undefined"`.
- **A document's own `origin` field steers its delete record.** The delete record spreads the document and sets no `origin` of its own. A tracked document that holds an `origin` field naming another document files its terminal record, numbered by its own count, into that document's history. The numbering properties below therefore hold for deletes of documents without an `origin` field.
- **Bulk methods archive one document.** Every hook fetches one document with `findOne(this.getQuery())`. So `updateMany` and `deleteMany` archive only the first document `findOne` returns; the others they match are changed or deleted without a record. `HookProperties.UpdateExtendsHistory` states this: only the fetched document's history grows.
- **A terminal record reuses the document's `_id`.** The delete record spreads the document without overriding `_id`. So a second terminal record for the same id collides with the first in the history collection's unique `_id` index. That happens when a document is re-inserted under its old `_id` and deleted again, or when a delete is retried after its hook saved the record but the deletion did not commit. The save then fails and that delete aborts every time. In the model this is the `saveOk` outcome of the driver, so `AllResolve` in `DeleteSnapshot` cannot always hold.
- **Naming.** The history model is named `<modelName>_history`. Mongoose derives the collection from that model name (lower-cased and pluralised by default, or the schema's `collection` option, which `clone()` copies); the model treats each history model as one collection.

## Model

| member | source | states |
|---|---|---|
| JsValue.OptGet | src/index.ts:54 | `v?.k` is `undefined` on a nullish or non-object `v` and the own property otherwise |
| JsValue.FirstTruthy | src/index.ts:54 | an or-chain `a0 or … or an` yields the first truthy operand, the last operand when none is truthy, and is truthy exactly when some operand is |
| JsValue.FirstTruthySnoc | src/index.ts:54 | extending a chain by one more or-operand `x` gives the flat chain with `x` at the end (left associativity is harmless) |
| JsValue.SpreadLookup | src/index.ts:48-55 | an object literal `{ ...base, k1: v1, … }` has the base's keys plus the listed ones; the last listing of a key wins and unlisted keys keep the base's value |
| JsValue.UserKey | src/index.ts:54 | `options?.userField` as a property key: the configured name, or `"undefined"` when it is unset |
| Documents.ToObject | src/index.ts:44 | `toObject()` has the document's fields plus `_id`, which holds the document's id |
| Documents.FindOneFirstMatch | src/index.ts:44 | `findOne(filter)` returns a matching document with no match before it, and returns nothing exactly when no document matches |
| Documents.CountIsHistoryLength | src/index.ts:45 | `countDocuments({ origin })` equals the length of that origin's history |
| Documents.OriginVersionsAppend | src/index.ts:57 | saving one record extends exactly the history of the origin the record names |
| Attribution.ChainOfFour | src/index.ts:54 | a four-operand left-associated or-chain is the first-truthy chain of its operands |
| Attribution.SrcUpdateByFirstTruthy | src/index.ts:54 | update actor: first truthy of the document's user field, `updatedBy`, `$set.updatedBy`, `createdBy` of the payload |
| Attribution.SrcDeleteByFirstTruthy | src/index.ts:81-83 | delete actor: first truthy of the document's user field, `updatedBy`, `createdBy` |
| Attribution.PayloadUpdateByFirstTruthy | index.js:52-55 | update actor without a user field: first truthy of the payload's `updatedBy`, `$set.updatedBy`, `createdBy` |
| Attribution.DocDeleteByFirstTruthy | index.js:82-84 | delete actor without a user field: first truthy of the document's `updatedBy`, `createdBy` |
| Attribution.LibMatchesOptionalChaining | lib/index.js:45-47 | the compiled explicit `null`/`void 0` tests compute the same actors as `?.` |
| Attribution.SrcUpdateByPrefersDocument | src/index.ts:54 | a truthy user field on the document decides the update actor whatever the payload says |
| Attribution.SrcUpdateByFallsBackToPayload | src/index.ts:54 | with a falsy user field the update actor is the payload-only actor |
| Schemas.Schema.constructor | index.ts:6 | `new Schema(obj, { timestamps })`: paths are the definition's, no hooks |
| Schemas.Schema.Clone | src/index.ts:6 | `clone()` is a fresh schema with the same definition, paths, options and hooks |
| Schemas.Schema.Add | src/index.ts:15-35 | `add(fields)` unions the paths, a re-added path replacing the old one, and changes nothing else |
| Schemas.Schema.Pre | src/index.ts:38 | `pre(method, fn)` appends one hook and changes nothing else |
| Schemas.ArchiveFields | src/index.ts:15-35 | the added fields are `origin`, `version`, `archived.at`, `archived.by`, `deleted.at`, `deleted.by`; only `version` is required, a number defaulting to 0 |
| Schemas.WithArchiveFields | index.js:13-33 | adding the archive fields keeps every base path and its required flag unless an archive field replaces it |
| Schemas.HistoryModelName | src/index.ts:41 | the history model's name is the model name followed by `_history` |
| Hooks.HistoryKeyOf | src/index.ts:41 | the history model is looked up under `<modelName>_history` on the query's connection, or on the default connection for `index.ts` |
| Hooks.UpdateRecordFields | src/index.ts:48-55 | the update record has a fresh `_id`, `origin` = the document's id, the given version, time and actor, and every other document field unchanged |
| Hooks.DeleteRecordFields | src/index.ts:77-84 | the delete record keeps the document's `_id` and fields, sets version and both times, uses one actor for `archivedBy` and `deletedBy`, and has an `origin` only if the document has one |
| Hooks.ArchiveStore.constructor | src/index.ts:41 | no history model registered and no history collection yet |
| Hooks.ArchiveStore.OnUpdate | src/index.ts:38-64 | the update hook registers the history model, then either appends the update step's record and proceeds, or aborts with the failing call's error and leaves every history collection unchanged |
| Hooks.ArchiveStore.OnDelete | src/index.ts:68-93 | the delete hook, in the same terms, against the delete step |
| Hooks.HooksFor | src/index.ts:37-38 | one `forEach` registers one hook per method name, in order |
| Hooks.RegisterHooks | src/index.ts:37-94 | the two loops append the three update hooks then the three delete hooks, and change nothing else |
| Hooks.ArchiverHooksPartition | src/index.ts:4-5 | exactly six hooks: update methods get the update body, delete methods the delete body, no method both |
| HookProperties.UpdateFailClosed | src/index.ts:43-63 | the update proceeds exactly when find, count and save succeed and a document is found; then one record is appended, otherwise the history is unchanged |
| HookProperties.DeleteFailClosed | src/index.ts:72-92 | the same for the delete hook |
| HookProperties.NullDocumentAborts | src/index.ts:44 | a filter that matches nothing aborts both hooks with the `.toObject()` error and saves nothing |
| HookProperties.UpdateSnapshot | src/index.ts:44-57 | the saved update record: fresh id, origin, version = origin count + 1, the clock reading, the variant's actor, the document's other fields |
| HookProperties.DeleteSnapshot | src/index.ts:73-86 | the saved delete record: the document's id, version = origin count, two clock readings, one actor for both `by` fields |
| HookProperties.UpdateRecordExtends | src/index.ts:45-51 | saving a record numbered count + 1 with origin `d` appends the next number to d's history and to no other |
| HookProperties.UpdateExtendsHistory | src/index.ts:44-57 | an update that proceeds on `d` appends `n + 1` to d's history of length `n`; every other history is unchanged |
| HookProperties.DeleteKeepsHistories | src/index.ts:73-86 | a delete of a document without its own `origin` field changes no origin's history |
| HookProperties.DeleteFilesUnderOwnOrigin | src/index.ts:77-86 | a delete of a document whose own `origin` field names `o` appends the document's own count to o's history |
| HookProperties.DeleteRepeatsLastVersion | src/index.ts:74-79 | deleting a document whose history is numbered 1..n writes version n, the last update's number |
| HookProperties.StepNumbersHistory | src/index.ts:37-94 | within one history collection, one hook that is not a delete of a document holding its own `origin` field keeps a history numbered 1..m and lengthens it by one exactly when it is an update whose hook fetched that document and proceeded |
| HookProperties.RunNumbersHistory | src/index.ts:37-94 | within one history collection, after any run of updates and deletes, succeeded or failed, in which no deleted document holds its own `origin` field, each document's history is numbered 1, 2, …, one more per update whose hook fetched it and proceeded |
| HookProperties.UpdateByIgnoresDocument | index.js:52-55 | without a user field the update actor depends on the payload only |
| HookProperties.PayloadVariantsAttribution | index.js:52-84 | the three variants without a user field take the payload's first truthy actor on update and the document's on delete |
| SrcIndex.Unrequired | src/index.ts:9-13 | clearing required flags keeps every path, its type and default; afterwards no path is required |
| SrcIndex.StripRequired | src/index.ts:9-13 | the loop over `historySchema.paths` leaves exactly the unrequired paths and touches nothing else |
| SrcIndex.OnlyVersionRequired | src/index.ts:8-35 | after stripping and adding, `version` is the one required path and every tracked path is kept |
| SrcIndex.PrepareHistorySchema | src/index.ts:6-35 | the history schema is a fresh clone with stripped paths plus the archive fields; the tracked schema is untouched |
| SrcIndex.MongooseArchiver | src/index.ts:3-95 | the plugin builds the history schema its hooks register (the source returns nothing; the model returns it so that its contents can be stated): stripped paths plus archive fields; the tracked schema's `obj`, `timestamps` and hooks as they were; and it appends the six hooks to the tracked schema, whose paths, `obj` and `timestamps` stay |
| SrcIndex.UpdateArchivedBy | src/index.ts:54 | the update record's `archivedBy` is the first truthy of the document's user field and the payload's three fields |
| SrcIndex.DeleteArchivedBy | src/index.ts:81-83 | the delete record's `archivedBy` and `deletedBy` are both the first truthy of user field, `updatedBy`, `createdBy` |
| SrcIndex.HistoryOnQueryConnection | src/index.ts:41 | both hooks use `<modelName>_history` on the query's connection |
| RootIndexTs.PrepareHistorySchema | index.ts:6-28 | the history schema is new, built from `schema.obj` with timestamps off, plus the archive fields, with no hooks |
| RootIndexTs.MongooseArchiver | index.ts:3-91 | the plugin builds the history schema its hooks register (the source returns nothing; the model returns it so that its contents can be stated): the definition's paths plus archive fields, the same `obj`, timestamps off, no hooks; and it appends the six hooks to the tracked schema, whose paths, `obj` and `timestamps` stay |
| RootIndexTs.HistoryFollowsDefinition | index.ts:6 | a path outside the definition object and the archive fields (one added after construction) is absent from the history; definition paths keep their flags |
| RootIndexTs.HistorySharedAcrossConnections | index.ts:34 | queries on different connections share one history model on the default connection |
| RootIndexJs.PrepareHistorySchema | index.js:11-33 | the history schema is a fresh clone, required flags included, plus the archive fields |
| RootIndexJs.MongooseArchiver | index.js:8-96 | the plugin builds the history schema its hooks register (the source returns nothing; the model returns it so that its contents can be stated): cloned paths plus archive fields; the tracked schema's `obj`, `timestamps` and hooks; and it appends the six hooks to the tracked schema, whose paths, `obj` and `timestamps` stay |
| RootIndexJs.HistoryPerConnection | index.js:39 | two connections keep separate histories: same history key exactly when the connection is the same |
| LibIndex.MongooseArchiver | lib/index.js:14-76 | the compiled plugin builds the history schema `index.js` prepares, which its hooks register (the source returns nothing; the model returns it so that its contents can be stated): cloned paths plus archive fields; the tracked schema's `obj`, `timestamps` and hooks; and it appends the six hooks to the tracked schema, whose paths, `obj` and `timestamps` stay |
| LibIndex.CompiledHooksMatchSource | lib/index.js:37-75 | on every input the compiled hooks take the same step and use the same history model as `index.js` |

## Left out

- Mongoose itself is not modelled. `clone`, `add`, `pre`, `model` and `save` are plain copies, unions, appends and sequence appends. In particular these are not modelled:
  - Validation on save, so a required path that a record lacks does not fail the save.
  - Strict mode, which would drop `archivedAt`, `archivedBy`, `deletedAt` and `deletedBy` because they are not schema paths (the schema declares `archived.at` and the like).
  - Casting and defaults.
- Nested paths are flat dotted keys. `historySchema.paths` and the `required(false)` calls are modelled per key.
- The tracked model's `findOne` takes only equality filters. Query operators, sort order, projections and `this.getQuery()` beyond its filter are not modelled.
- `async`/`await` and `__awaiter` are not modelled, and neither are concurrent hooks. Hooks run one at a time, each to completion, so interleaved count-and-save races between concurrent hooks are out of scope.
- A failure of `mongoose.model(...)` or `conn.model(...)` is not modelled. It happens before the `try`, would reject the hook without calling `next`, and its outcome depends on Mongoose's model cache.
- JavaScript values are reduced to undefined, null, booleans, integers, strings, ObjectIds, dates and plain objects. Floating point, `NaN`, arrays and inherited properties are not modelled. An ObjectId is a natural number.
- Tracked documents' `_id`s are assumed to be ObjectIds. Every hook runs `new Types.ObjectId(docToUpdate._id)` inside its `try`. A String or UUID `_id` would make that throw for most values, so the hook would end in `next(error)`. A numeric `_id` would give an unrelated ObjectId, so the count would always be 0. Neither path is modelled.
- The clock, the ObjectId generator and the driver's outcomes are parameters. The model does not say where they come from.
- The `TMethod` and `IOptions` type declarations carry no behaviour and are not modelled.

=== FILE: attribution.dfy ===
/**
 * Who is recorded as having archived (and deleted) a document: a
 * first-truthy `||` chain whose tiers differ between the four variants of the
 * plugin. Each chain is written left-associated, as in the sources; the
 * lemmas below give its meaning through the reference `FirstTruthy` over the
 * list of its tiers.
 */
module Attribution {
  import opened JsValue

  /**
   * src/index.ts, update hook: the fetched document's configured user field,
   * then the payload's `updatedBy`, `$set.updatedBy` and `createdBy`.
   */
  function SrcUpdateBy(doc: Value, userField: Option<string>, update: Value): Value {
    Or(Or(Or(OptGet(doc, UserKey(userField)),
             OptGet(update, "updatedBy")),
          OptGet(OptGet(update, "$set"), "updatedBy")),
       OptGet(update, "createdBy"))
  }

  /**
   * src/index.ts, delete hook: the document's configured user field, then
   * its `updatedBy`, then its `createdBy`.
   */
  function SrcDeleteBy(doc: Value, userField: Option<string>): Value {
    Or(Or(OptGet(doc, UserKey(userField)), OptGet(doc, "updatedBy")), OptGet(doc, "createdBy"))
  }

  /** index.ts and index.js, update hook: the payload alone, `updatedBy`, `$set.updatedBy`, `createdBy`. */
  function PayloadUpdateBy(update: Value): Value {
    Or(Or(OptGet(update, "updatedBy"), OptGet(OptGet(update, "$set"), "updatedBy")),
       OptGet(update, "createdBy"))
  }

  /** index.ts and index.js, delete hook: `doc?.updatedBy || doc?.createdBy`. */
  function DocDeleteBy(doc: Value): Value {
    Or(OptGet(doc, "updatedBy"), OptGet(doc, "createdBy"))
  }

  /** The compiled form of `v?.k`: `v === null || v === void 0 ? void 0 : v.k`. */
  function LoweredGet(v: Value, k: string): Value {
    if v == Null || v == Undefined then Undefined else Prop(v, k)
  }

  /** lib/index.js, update hook, with the `?.` reads lowered to explicit null tests. */
  function LibUpdateBy(update: Value): Value {
    var a := LoweredGet(update, "$set");
    Or(Or(LoweredGet(update, "updatedBy"), LoweredGet(a, "updatedBy")),
       LoweredGet(update, "createdBy"))
  }

  /** lib/index.js, delete hook, lowered likewise. */
  function LibDeleteBy(doc: Value): Value {
    Or(LoweredGet(doc, "updatedBy"), LoweredGet(doc, "createdBy"))
  }

  /** A left-associated chain of two, three or four operands is the flat first-truthy chain. */
  lemma ChainOfTwo(t0: Value, t1: Value)
    ensures Or(t0, t1) == FirstTruthy([t0, t1])
  {
    assert FirstTruthy([t0]) == t0;
    FirstTruthySnoc([t0], t1);
    assert [t0] + [t1] == [t0, t1];
  }

  lemma ChainOfThree(t0: Value, t1: Value, t2: Value)
    ensures Or(Or(t0, t1), t2) == FirstTruthy([t0, t1, t2])
  {
    ChainOfTwo(t0, t1);
    FirstTruthySnoc([t0, t1], t2);
    assert [t0, t1] + [t2] == [t0, t1, t2];
  }

  lemma ChainOfFour(t0: Value, t1: Value, t2: Value, t3: Value)
    ensures Or(Or(Or(t0, t1), t2), t3) == FirstTruthy([t0, t1, t2, t3])
  {
    ChainOfThree(t0, t1, t2);
    FirstTruthySnoc([t0, t1, t2], t3);
    assert [t0, t1, t2] + [t3] == [t0, t1, t2, t3];
  }

  /**
   * src/index.ts's update actor is the first truthy of the document's user
   * field and the payload's three fields, the document being asked first.
   */
  lemma SrcUpdateByFirstTruthy(doc: Value, userField: Option<string>, update: Value)
    ensures SrcUpdateBy(doc, userField, update)
         == FirstTruthy([OptGet(doc, UserKey(userField)),
                         OptGet(update, "updatedBy"),
                         OptGet(OptGet(update, "$set"), "updatedBy"),
                         OptGet(update, "createdBy")])
  {
    ChainOfFour(OptGet(doc, UserKey(userField)), OptGet(update, "updatedBy"),
                OptGet(OptGet(update, "$set"), "updatedBy"), OptGet(update, "createdBy"));
  }

  /** src/index.ts's delete actor: the document's user field, `updatedBy`, `createdBy`, first truthy wins. */
  lemma SrcDeleteByFirstTruthy(doc: Value, userField: Option<string>)
    ensures SrcDeleteBy(doc, userField)
         == FirstTruthy([OptGet(doc, UserKey(userField)), OptGet(doc, "updatedBy"), OptGet(doc, "createdBy")])
  {
    ChainOfThree(OptGet(doc, UserKey(userField)), OptGet(doc, "updatedBy"), OptGet(doc, "createdBy"));
  }

  /** The payload-only update actor of index.ts and index.js. */
  lemma PayloadUpdateByFirstTruthy(update: Value)
    ensures PayloadUpdateBy(update)
         == FirstTruthy([OptGet(update, "updatedBy"),
                         OptGet(OptGet(update, "$set"), "updatedBy"),
                         OptGet(update, "createdBy")])
  {
    ChainOfThree(OptGet(update, "updatedBy"), OptGet(OptGet(update, "$set"), "updatedBy"),
                 OptGet(update, "createdBy"));
  }

  /** The delete actor of index.ts, index.js and lib/index.js. */
  lemma DocDeleteByFirstTruthy(doc: Value)
    ensures DocDeleteBy(doc) == FirstTruthy([OptGet(doc, "updatedBy"), OptGet(doc, "createdBy")])
  {
    ChainOfTwo(OptGet(doc, "updatedBy"), OptGet(doc, "createdBy"));
  }

  /** The lowered null tests of lib/index.js compute the same actors as the `?.` chains of index.js. */
  lemma LibMatchesOptionalChaining(update: Value, doc: Value)
    ensures LibUpdateBy(update) == PayloadUpdateBy(update)
    ensures LibDeleteBy(doc) == DocDeleteBy(doc)
  {
  }

  /** The configured user field on the fetched document outranks everything in the payload. */
  lemma SrcUpdateByPrefersDocument(doc: Value, userField: Option<string>, update: Value)
    requires Truthy(OptGet(doc, UserKey(userField)))
    ensures SrcUpdateBy(doc, userField, update) == OptGet(doc, UserKey(userField))
  {
  }

  /** Without the configured field, src/index.ts's update chain is exactly the payload chain of the other variants. */
  lemma SrcUpdateByFallsBackToPayload(doc: Value, userField: Option<string>, update: Value)
    requires !Truthy(OptGet(doc, UserKey(userField)))
    ensures SrcUpdateBy(doc, userField, update) == PayloadUpdateBy(update)
  {
  }
}

=== FILE: documents.dfy ===
/**
 * The two stores the hooks touch: the tracked collection, read with
 * `findOne(filter)` and `toObject()`, and a history collection, read with
 * `countDocuments({ origin })` and appended to with `save()`.
 */
module Documents {
  import opened JsValue

  /** A tracked document: its `_id` and its other fields. */
  datatype Doc = Doc(id: Id, fields: map<string, Value>)

  /** `doc.toObject()`: the document's fields as a plain object, with `_id` set to the document's id. */
  function ToObject(d: Doc): (o: map<string, Value>)
    ensures o.Keys == d.fields.Keys + {"_id"}
    ensures o["_id"] == Oid(d.id)
    ensures forall k :: k in d.fields && k != "_id" ==> o[k] == d.fields[k]
  {
    d.fields["_id" := Oid(d.id)]
  }

  /** A query filter of field equalities (`{ _id: x }`, `{ name: "a" }`). */
  type Filter = map<string, Value>

  predicate Matches(d: Doc, f: Filter) {
    forall k :: k in f ==> k in ToObject(d) && ToObject(d)[k] == f[k]
  }

  /** `Model.findOne(filter)`: the first document in natural order that matches, or `null`. */
  function FindOne(tracked: seq<Doc>, f: Filter): Option<Doc> {
    if |tracked| == 0 then None
    else if Matches(tracked[0], f) then Some(tracked[0])
    else FindOne(tracked[1..], f)
  }

  /**
   * `findOne` returns a matching document with no match before it, and
   * returns nothing exactly when no document matches.
   */
  lemma {:induction false} FindOneFirstMatch(tracked: seq<Doc>, f: Filter)
    ensures var r := FindOne(tracked, f);
      && (r.Some? ==> exists i :: 0 <= i < |tracked| && tracked[i] == r.value && Matches(r.value, f)
                                  && forall j :: 0 <= j < i ==> !Matches(tracked[j], f))
      && (r.None? <==> forall i :: 0 <= i < |tracked| ==> !Matches(tracked[i], f))
  {
    if |tracked| > 0 && !Matches(tracked[0], f) {
      var r := FindOne(tracked[1..], f);
      FindOneFirstMatch(tracked[1..], f);
      assert forall i :: 1 <= i < |tracked| ==> tracked[i] == tracked[1..][i - 1];
      if r.Some? {
        var i :| 0 <= i < |tracked[1..]| && tracked[1..][i] == r.value && Matches(r.value, f)
                 && forall j :: 0 <= j < i ==> !Matches(tracked[1..][j], f);
        assert tracked[i + 1] == r.value && forall j :: 0 <= j < i + 1 ==> !Matches(tracked[j], f);
      }
    }
  }

  /** An archive record: the object handed to `new HistoryModel(...)` and saved. */
  type Record = map<string, Value>

  /** The record's `origin` field, `undefined` when it has none. */
  function OriginOf(r: Record): Value {
    if "origin" in r then r["origin"] else Undefined
  }

  function VersionOf(r: Record): Value {
    if "version" in r then r["version"] else Undefined
  }

  /** `HistoryModel.countDocuments({ origin: id })`. */
  function CountOrigin(archive: seq<Record>, id: Id): (n: nat)
    ensures n <= |archive|
  {
    if |archive| == 0 then 0
    else (if OriginOf(archive[0]) == Oid(id) then 1 else 0) + CountOrigin(archive[1..], id)
  }

  /** The versions of the records with origin `id`, in the order they were saved. */
  function OriginVersions(archive: seq<Record>, id: Id): (vs: seq<Value>)
    ensures |vs| <= |archive|
  {
    if |archive| == 0 then []
    else (if OriginOf(archive[0]) == Oid(id) then [VersionOf(archive[0])] else [])
         + OriginVersions(archive[1..], id)
  }

  /** The count the hooks compute is the length of the origin's history. */
  lemma {:induction false} CountIsHistoryLength(archive: seq<Record>, id: Id)
    ensures CountOrigin(archive, id) == |OriginVersions(archive, id)|
  {
    if |archive| > 0 {
      CountIsHistoryLength(archive[1..], id);
    }
  }

  /** Saving one record extends exactly the history of the origin it names. */
  lemma {:induction false} OriginVersionsAppend(archive: seq<Record>, r: Record, id: Id)
    ensures OriginVersions(archive + [r], id)
         == OriginVersions(archive, id) + (if OriginOf(r) == Oid(id) then [VersionOf(r)] else [])
  {
    if |archive| > 0 {
      assert (archive + [r])[1..] == archive[1..] + [r];
      OriginVersionsAppend(archive[1..], r, id);
    } else {
      assert archive + [r] == [r];
    }
  }

  /** A history numbered `1, 2, ..., n` in save order. */
  predicate NumberedFromOne(vs: seq<Value>) {
    forall i :: 0 <= i < |vs| ==> vs[i] == Num(i + 1)
  }
}

=== FILE: hook_properties.dfy ===
/**
 * What the two hooks guarantee, for every variant: the mutation goes on only
 * after the snapshot is saved, a failed hook leaves the history untouched,
 * and a document's update snapshots are numbered 1, 2, 3, ... with its
 * delete snapshot carrying the number of the last update.
 */
module HookProperties {
  import opened JsValue
  import opened Documents
  import opened Attribution
  import opened Hooks

  /** The three driver calls all resolve. */
  const AllResolve := Driver(true, true, true)

  /**
   * Fail-closed update: `next()` is reached exactly when find, count and
   * save all succeed and a document was found; then exactly one record is
   * appended, and otherwise the history is unchanged.
   */
  lemma UpdateFailClosed(v: Variant, q: Query, drv: Driver, freshId: Id, now: int, archive: seq<Record>)
    ensures var s := UpdateStep(v, q, drv, freshId, now, archive);
      && (s.next.Proceed? <==> drv == AllResolve && FindOne(q.tracked, q.filter).Some?)
      && (s.next.Abort? ==> s.archive == archive)
      && (s.next.Proceed? ==> |s.archive| == |archive| + 1 && s.archive[..|archive|] == archive)
  {
    var s := UpdateStep(v, q, drv, freshId, now, archive);
    if s.next.Proceed? {
      assert s.archive[..|archive|] == archive;
    }
  }

  /** Fail-closed delete, in the same terms. */
  lemma DeleteFailClosed(v: Variant, q: Query, drv: Driver, archivedAt: int, deletedAt: int, archive: seq<Record>)
    ensures var s := DeleteStep(v, q, drv, archivedAt, deletedAt, archive);
      && (s.next.Proceed? <==> drv == AllResolve && FindOne(q.tracked, q.filter).Some?)
      && (s.next.Abort? ==> s.archive == archive)
      && (s.next.Proceed? ==> |s.archive| == |archive| + 1 && s.archive[..|archive|] == archive)
  {
    var s := DeleteStep(v, q, drv, archivedAt, deletedAt, archive);
    if s.next.Proceed? {
      assert s.archive[..|archive|] == archive;
    }
  }

  /**
   * A filter that matches nothing does not skip archiving: `.toObject()` on
   * `null` throws inside the `try`, so both hooks end in `next(error)` and
   * the mutation is aborted.
   */
  lemma NullDocumentAborts(v: Variant, q: Query, drv: Driver, freshId: Id, at1: int, at2: int, archive: seq<Record>)
    requires drv.findOk && FindOne(q.tracked, q.filter).None?
    ensures UpdateStep(v, q, drv, freshId, at1, archive) == Step(Abort(NullDocument), archive)
    ensures DeleteStep(v, q, drv, at1, at2, archive) == Step(Abort(NullDocument), archive)
  {
  }

  /**
   * The update snapshot: a fresh `_id`, `origin` = the document's id, version
   * = that origin's record count + 1, the variant's actor, and every other
   * field of the fetched document unchanged.
   */
  lemma UpdateSnapshot(v: Variant, q: Query, freshId: Id, now: int, archive: seq<Record>, d: Doc)
    requires FindOne(q.tracked, q.filter) == Some(d)
    ensures var s := UpdateStep(v, q, AllResolve, freshId, now, archive);
      && s.next == Proceed && |s.archive| == |archive| + 1
      && var r := s.archive[|archive|];
      && r.Keys == d.fields.Keys + UpdateKeys
      && r["_id"] == Oid(freshId) && OriginOf(r) == Oid(d.id)
      && VersionOf(r) == Num(CountOrigin(archive, d.id) + 1)
      && r["archivedAt"] == Date(now) && r["archivedBy"] == UpdateBy(v, Obj(ToObject(d)), q.update)
      && forall k :: k in d.fields && k !in UpdateKeys ==> r[k] == d.fields[k]
  {
    var rec := UpdateRecord(d, freshId, CountOrigin(archive, d.id) + 1, now, UpdateBy(v, Obj(ToObject(d)), q.update));
    UpdateStepSaves(v, q, AllResolve, freshId, now, archive, d);
    assert (archive + [rec])[|archive|] == rec;
    UpdateRecordFields(d, freshId, CountOrigin(archive, d.id) + 1, now, UpdateBy(v, Obj(ToObject(d)), q.update));
  }

  /**
   * The delete snapshot: the document's own `_id`, version = the record count
   * with no increment, one actor as both archiver and deleter, and no
   * `origin` beyond one the document itself holds.
   */
  lemma DeleteSnapshot(v: Variant, q: Query, archivedAt: int, deletedAt: int, archive: seq<Record>, d: Doc)
    requires FindOne(q.tracked, q.filter) == Some(d)
    ensures var s := DeleteStep(v, q, AllResolve, archivedAt, deletedAt, archive);
      && s.next == Proceed && |s.archive| == |archive| + 1
      && var r := s.archive[|archive|];
      && r.Keys == d.fields.Keys + {"_id"} + DeleteKeys
      && r["_id"] == Oid(d.id) && VersionOf(r) == Num(CountOrigin(archive, d.id))
      && r["archivedBy"] == r["deletedBy"] == DeleteBy(v, Obj(ToObject(d)))
      && r["archivedAt"] == Date(archivedAt) && r["deletedAt"] == Date(deletedAt)
      && OriginOf(r) == (if "origin" in d.fields then d.fields["origin"] else Undefined)
      && forall k :: k in d.fields && k !in DeleteKeys && k != "_id" ==> r[k] == d.fields[k]
  {
    var rec := DeleteRecord(d, CountOrigin(archive, d.id), archivedAt, deletedAt, DeleteBy(v, Obj(ToObject(d))));
    DeleteStepSaves(v, q, AllResolve, archivedAt, deletedAt, archive, d);
    assert (archive + [rec])[|archive|] == rec;
    DeleteRecordFields(d, CountOrigin(archive, d.id), archivedAt, deletedAt, DeleteBy(v, Obj(ToObject(d))));
  }

  /** Saving an update record of `d` numbered count + 1 extends d's history by its next number. */
  lemma UpdateRecordExtends(archive: seq<Record>, rec: Record, d: Doc, id: Id)
    requires OriginOf(rec) == Oid(d.id) && VersionOf(rec) == Num(CountOrigin(archive, d.id) + 1)
    ensures OriginVersions(archive + [rec], id)
         == OriginVersions(archive, id) + (if d.id == id then [Num(|OriginVersions(archive, id)| + 1)] else [])
  {
    OriginVersionsAppend(archive, rec, id);
    CountIsHistoryLength(archive, d.id);
  }

  /**
   * An update whose hook fetched document `d` (the first `findOne`
   * returns) and proceeded extends d's history by the next number and leaves every other document's history as it was.
   */
  lemma UpdateExtendsHistory(v: Variant, q: Query, drv: Driver, freshId: Id, now: int, archive: seq<Record>, id: Id)
    ensures var s := UpdateStep(v, q, drv, freshId, now, archive);
            var found := FindOne(q.tracked, q.filter);
            var hit := s.next.Proceed? && found.Some? && found.value.id == id;
      OriginVersions(s.archive, id)
        == OriginVersions(archive, id) + (if hit then [Num(|OriginVersions(archive, id)| + 1)] else [])
  {
    var s := UpdateStep(v, q, drv, freshId, now, archive);
    match FindOne(q.tracked, q.filter)
    case None =>
      assert s.archive == archive;
    case Some(d) =>
      if drv.findOk && drv.countOk && drv.saveOk {
        var rec := UpdateRecord(d, freshId, CountOrigin(archive, d.id) + 1, now, UpdateBy(v, Obj(ToObject(d)), q.update));
        UpdateStepSaves(v, q, drv, freshId, now, archive, d);
        UpdateRecordFields(d, freshId, CountOrigin(archive, d.id) + 1, now, UpdateBy(v, Obj(ToObject(d)), q.update));
        UpdateRecordExtends(archive, rec, d, id);
      } else {
        assert s.archive == archive;
      }
  }

  /**
   * A delete whose hook fetched a document without its own `origin` field adds
   * its terminal record to no document's history.
   */
  lemma DeleteKeepsHistories(v: Variant, q: Query, drv: Driver, archivedAt: int, deletedAt: int, archive: seq<Record>, id: Id)
    requires FindOne(q.tracked, q.filter).Some? ==> "origin" !in FindOne(q.tracked, q.filter).value.fields
    ensures OriginVersions(DeleteStep(v, q, drv, archivedAt, deletedAt, archive).archive, id)
         == OriginVersions(archive, id)
  {
    var s := DeleteStep(v, q, drv, archivedAt, deletedAt, archive);
    match FindOne(q.tracked, q.filter)
    case None =>
      assert s.archive == archive;
    case Some(d) =>
      if drv.findOk && drv.countOk && drv.saveOk {
        var actor := DeleteBy(v, Obj(ToObject(d)));
        var rec := DeleteRecord(d, CountOrigin(archive, d.id), archivedAt, deletedAt, actor);
        DeleteStepSaves(v, q, drv, archivedAt, deletedAt, archive, d);
        DeleteRecordFields(d, CountOrigin(archive, d.id), archivedAt, deletedAt, actor);
        OriginVersionsAppend(archive, rec, id);
      } else {
        assert s.archive == archive;
      }
  }

  /**
   * The delete record spreads the document and sets no `origin` of its own,
   * so a document that holds an `origin` field naming `o` files its terminal
   * record, numbered by its own count, into o's history.
   */
  lemma DeleteFilesUnderOwnOrigin(v: Variant, q: Query, archivedAt: int, deletedAt: int, archive: seq<Record>, d: Doc, o: Id)
    requires FindOne(q.tracked, q.filter) == Some(d)
    requires "origin" in d.fields && d.fields["origin"] == Oid(o)
    ensures OriginVersions(DeleteStep(v, q, AllResolve, archivedAt, deletedAt, archive).archive, o)
         == OriginVersions(archive, o) + [Num(CountOrigin(archive, d.id))]
  {
    var actor := DeleteBy(v, Obj(ToObject(d)));
    var rec := DeleteRecord(d, CountOrigin(archive, d.id), archivedAt, deletedAt, actor);
    DeleteStepSaves(v, q, AllResolve, archivedAt, deletedAt, archive, d);
    DeleteRecordFields(d, CountOrigin(archive, d.id), archivedAt, deletedAt, actor);
    OriginVersionsAppend(archive, rec, o);
  }

  /**
   * Deleting a document whose history is 1..n writes a terminal record with
   * version n: the number of the last update, not a new one.
   */
  lemma DeleteRepeatsLastVersion(v: Variant, q: Query, archivedAt: int, deletedAt: int, archive: seq<Record>, d: Doc)
    requires FindOne(q.tracked, q.filter) == Some(d)
    requires NumberedFromOne(OriginVersions(archive, d.id))
    ensures var s := DeleteStep(v, q, AllResolve, archivedAt, deletedAt, archive);
            var n := |OriginVersions(archive, d.id)|;
      && VersionOf(s.archive[|archive|]) == Num(n)
      && (n > 0 ==> VersionOf(s.archive[|archive|]) == OriginVersions(archive, d.id)[n - 1])
  {
    DeleteSnapshot(v, q, archivedAt, deletedAt, archive, d);
    CountIsHistoryLength(archive, d.id);
  }

  /** One intercepted mutation, with what the driver, the clock and the id generator give it. */
  datatype Call =
    | UpdateCall(q: Query, drv: Driver, freshId: Id, now: int)
    | DeleteCall(q: Query, drv: Driver, archivedAt: int, deletedAt: int)

  /** The history collection after the hook of one call. */
  function StepArchive(v: Variant, c: Call, archive: seq<Record>): seq<Record> {
    match c
    case UpdateCall(q, drv, freshId, now) => UpdateStep(v, q, drv, freshId, now, archive).archive
    case DeleteCall(q, drv, at1, at2) => DeleteStep(v, q, drv, at1, at2, archive).archive
  }

  /**
   * The history collection after running the hooks of `calls` in order. All
   * calls are taken to resolve the same history model (`HistoryKeyOf`); calls
   * on other models or connections write to other collections.
   */
  function Run(v: Variant, calls: seq<Call>, archive: seq<Record>): seq<Record>
    decreases |calls|
  {
    if calls == [] then archive else Run(v, calls[1..], StepArchive(v, calls[0], archive))
  }

  /** The update hook of `c` fetched the document with id `id` (the first `findOne` returns) and proceeded. */
  predicate UpdatesDoc(c: Call, id: Id) {
    && c.UpdateCall? && c.drv == AllResolve
    && FindOne(c.q.tracked, c.q.filter).Some? && FindOne(c.q.tracked, c.q.filter).value.id == id
  }

  function UpdatesOf(calls: seq<Call>, id: Id): nat {
    if calls == [] then 0 else (if UpdatesDoc(calls[0], id) then 1 else 0) + UpdatesOf(calls[1..], id)
  }

  /** A delete call whose document, if found, holds no `origin` field of its own. */
  predicate CarriesNoOrigin(c: Call) {
    c.DeleteCall? && FindOne(c.q.tracked, c.q.filter).Some? ==> "origin" !in FindOne(c.q.tracked, c.q.filter).value.fields
  }

  /** One hook keeps a history numbered 1..m, adding m + 1 when it is an update whose hook fetched that document and proceeded. */
  lemma StepNumbersHistory(v: Variant, c: Call, archive: seq<Record>, id: Id)
    requires NumberedFromOne(OriginVersions(archive, id))
    requires CarriesNoOrigin(c)
    ensures NumberedFromOne(OriginVersions(StepArchive(v, c, archive), id))
    ensures |OriginVersions(StepArchive(v, c, archive), id)|
         == |OriginVersions(archive, id)| + if UpdatesDoc(c, id) then 1 else 0
  {
    var after := StepArchive(v, c, archive);
    match c {
      case UpdateCall(q, drv, freshId, now) =>
        assert after == UpdateStep(v, q, drv, freshId, now, archive).archive;
        UpdateExtendsHistory(v, q, drv, freshId, now, archive, id);
        UpdateFailClosed(v, q, drv, freshId, now, archive);
      case DeleteCall(q, drv, at1, at2) =>
        assert after == DeleteStep(v, q, drv, at1, at2, archive).archive;
        DeleteKeepsHistories(v, q, drv, at1, at2, archive, id);
    }
  }

  /**
   * Sequential hooks keep every history numbered 1..n: within one history
   * collection, after any run of updates and deletes, succeeded or failed,
   * none of them a delete of a document with its own `origin`, the records
   * with origin `id` carry versions 1, 2, ..., one more per update whose
   * hook fetched that document and proceeded.
   */
  lemma {:induction false} RunNumbersHistory(v: Variant, calls: seq<Call>, archive: seq<Record>, id: Id)
    requires NumberedFromOne(OriginVersions(archive, id))
    requires forall c :: c in calls ==> CarriesNoOrigin(c)
    ensures NumberedFromOne(OriginVersions(Run(v, calls, archive), id))
    ensures |OriginVersions(Run(v, calls, archive), id)| == |OriginVersions(archive, id)| + UpdatesOf(calls, id)
    decreases |calls|
  {
    if calls != [] {
      var next := StepArchive(v, calls[0], archive);
      StepNumbersHistory(v, calls[0], archive, id);
      assert forall c :: c in calls[1..] ==> c in calls;
      RunNumbersHistory(v, calls[1..], next, id);
    }
  }

  /**
   * The payload-only variants read nothing of the fetched document to pick
   * the update actor: two documents give the same `archivedBy`.
   */
  lemma UpdateByIgnoresDocument(v: Variant, doc1: Value, doc2: Value, update: Value)
    requires !v.SrcTs?
    ensures UpdateBy(v, doc1, update) == UpdateBy(v, doc2, update) == PayloadUpdateBy(update)
  {
    LibMatchesOptionalChaining(update, doc1);
  }

  /**
   * The actor of the three variants without a user field: the first truthy
   * of the payload's `updatedBy`, `$set.updatedBy` and `createdBy` for an
   * update, of the document's `updatedBy` and `createdBy` for a delete.
   */
  lemma PayloadVariantsAttribution(v: Variant, doc: Value, update: Value)
    requires !v.SrcTs?
    ensures UpdateBy(v, doc, update)
      == FirstTruthy([OptGet(update, "updatedBy"), OptGet(OptGet(update, "$set"), "updatedBy"), OptGet(update, "createdBy")])
    ensures DeleteBy(v, doc) == FirstTruthy([OptGet(doc, "updatedBy"), OptGet(doc, "createdBy")])
  {
    LibMatchesOptionalChaining(update, doc);
    PayloadUpdateByFirstTruthy(update);
    DocDeleteByFirstTruthy(doc);
  }
}

=== FILE: hooks.dfy ===
/**
 * The pre hooks the plugin registers, shared by its four variants. A hook
 * fetches one document, the first `findOne` returns for the query's filter
 * (so `updateMany` and `deleteMany` archive one document), counts its history,
 * assembles a snapshot record and saves it before letting the mutation go on
 * (`next()`); any failure on the way ends in `next(error)`.
 *
 * The flows are specified by the pure functions `UpdateStep` and
 * `DeleteStep` over one history collection; `ArchiveStore.OnUpdate` and
 * `ArchiveStore.OnDelete` perform the same steps in order against the store.
 */
module Hooks {
  import opened JsValue
  import opened Documents
  import opened Attribution
  import opened Schemas

  /** The four variants of the plugin; only src/index.ts takes an option. */
  datatype Variant =
    | SrcTs(userField: Option<string>)   // src/index.ts
    | RootTs                             // index.ts
    | RootJs                             // index.js
    | LibJs                              // lib/index.js

  /** A database connection; `DefaultConnection` is the one the global `mongoose` object owns. */
  type ConnId = nat
  const DefaultConnection: ConnId := 0

  /** What a hook reads from the query it runs for (`this` inside the hook). */
  datatype Query = Query(
    conn: ConnId,            // this.mongooseCollection.conn
    modelName: string,       // this.model.modelName
    tracked: seq<Doc>,       // the tracked collection this.model reads
    filter: Filter,          // this.getQuery()
    update: Value)           // this.getUpdate()

  /** Whether each of the three driver calls resolves (true) or rejects (false). */
  datatype Driver = Driver(findOk: bool, countOk: bool, saveOk: bool)

  datatype HookError =
    | FindFailed       // findOne rejected
    | NullDocument     // findOne gave null, and `.toObject()` on it threw a TypeError
    | CountFailed      // countDocuments rejected
    | SaveFailed       // save rejected

  /** How the hook hands control back: `next()` or `next(error)`. */
  datatype Next = Proceed | Abort(error: HookError)

  /** A flow's outcome and the history collection after it. */
  datatype Step = Step(next: Next, archive: seq<Record>)

  /** A registered history model: its connection and its name. */
  datatype HistoryKey = HistoryKey(conn: ConnId, name: string)

  /**
   * Where the history model is looked up: index.ts uses the global
   * `mongoose.model`, the other variants the query's own connection.
   */
  function HistoryKeyOf(v: Variant, q: Query): (key: HistoryKey)
    ensures key.name == HistoryModelName(q.modelName)
    ensures v.RootTs? ==> key.conn == DefaultConnection
    ensures !v.RootTs? ==> key.conn == q.conn
  {
    HistoryKey(if v.RootTs? then DefaultConnection else q.conn, HistoryModelName(q.modelName))
  }

  /** The `archivedBy` expression of each variant's update hook. */
  function UpdateBy(v: Variant, doc: Value, update: Value): Value {
    match v
    case SrcTs(userField) => SrcUpdateBy(doc, userField, update)
    case RootTs => PayloadUpdateBy(update)
    case RootJs => PayloadUpdateBy(update)
    case LibJs => LibUpdateBy(update)
  }

  /** The `archivedBy`/`deletedBy` expression of each variant's delete hook. */
  function DeleteBy(v: Variant, doc: Value): Value {
    match v
    case SrcTs(userField) => SrcDeleteBy(doc, userField)
    case RootTs => DocDeleteBy(doc)
    case RootJs => DocDeleteBy(doc)
    case LibJs => LibDeleteBy(doc)
  }

  /** The keys the update record sets after spreading the document. */
  const UpdateKeys: set<string> := {"_id", "version", "origin", "archivedAt", "archivedBy"}

  /** The keys the delete record sets after spreading the document. */
  const DeleteKeys: set<string> := {"version", "archivedAt", "archivedBy", "deletedAt", "deletedBy"}

  /** The properties the update record lists after spreading the document, in literal order. */
  function UpdateProps(d: Doc, freshId: Id, version: nat, at: int, actor: Value): seq<(string, Value)> {
    [("_id", Oid(freshId)), ("version", Num(version)), ("origin", Oid(d.id)), ("archivedAt", Date(at)), ("archivedBy", actor)]
  }

  /**
   * `{ ...doc, _id: freshId, version, origin: doc._id, archivedAt, archivedBy }`:
   * a copy of the document under a new id, pointing back at the document.
   */
  function UpdateRecord(d: Doc, freshId: Id, version: nat, at: int, actor: Value): Record {
    Spread(ToObject(d), UpdateProps(d, freshId, version, at, actor))
  }

  /** The update record names the document as its origin under a new id and copies every other field unchanged. */
  lemma UpdateRecordFields(d: Doc, freshId: Id, version: nat, at: int, actor: Value)
    ensures var r := UpdateRecord(d, freshId, version, at, actor);
      && r.Keys == d.fields.Keys + UpdateKeys
      && r["_id"] == Oid(freshId) && OriginOf(r) == Oid(d.id) && VersionOf(r) == Num(version)
      && r["archivedAt"] == Date(at) && r["archivedBy"] == actor
      && forall k :: k in d.fields && k !in UpdateKeys ==> r[k] == d.fields[k]
  {
    var p := UpdateProps(d, freshId, version, at, actor);
    var m := ToObject(d);
    SpreadFirst(m, p);
    SpreadFirst(m[p[0].0 := p[0].1], p[1..]);
    SpreadFirst(m[p[0].0 := p[0].1][p[1].0 := p[1].1], p[2..]);
    assert p[2..][1..] == p[3..] && p[3..][1..] == p[4..] && p[4..][1..] == [];
    SpreadFirst(m[p[0].0 := p[0].1][p[1].0 := p[1].1][p[2].0 := p[2].1], p[3..]);
    SpreadFirst(m[p[0].0 := p[0].1][p[1].0 := p[1].1][p[2].0 := p[2].1][p[3].0 := p[3].1], p[4..]);
  }

  /** The properties the delete record lists after spreading the document, in literal order. */
  function DeleteProps(version: nat, archivedAt: int, deletedAt: int, actor: Value): seq<(string, Value)> {
    [("version", Num(version)), ("archivedAt", Date(archivedAt)), ("archivedBy", actor),
     ("deletedAt", Date(deletedAt)), ("deletedBy", actor)]
  }

  /**
   * `{ ...doc, version, archivedAt, archivedBy, deletedAt, deletedBy }`: a copy
   * of the document that keeps its `_id`; the same actor is both archiver
   * and deleter, and `origin` is only what the document itself holds.
   */
  function DeleteRecord(d: Doc, version: nat, archivedAt: int, deletedAt: int, actor: Value): Record {
    Spread(ToObject(d), DeleteProps(version, archivedAt, deletedAt, actor))
  }

  /**
   * The delete record keeps the document's id and fields, carries one actor
   * as both archiver and deleter, and has an `origin` only if the document has one.
   */
  lemma DeleteRecordFields(d: Doc, version: nat, archivedAt: int, deletedAt: int, actor: Value)
    ensures var r := DeleteRecord(d, version, archivedAt, deletedAt, actor);
      && r.Keys == d.fields.Keys + {"_id"} + DeleteKeys
      && r["_id"] == Oid(d.id) && VersionOf(r) == Num(version)
      && r["archivedAt"] == Date(archivedAt) && r["deletedAt"] == Date(deletedAt)
      && r["archivedBy"] == actor && r["deletedBy"] == actor
      && OriginOf(r) == (if "origin" in d.fields then d.fields["origin"] else Undefined)
      && forall k :: k in d.fields && k !in DeleteKeys && k != "_id" ==> r[k] == d.fields[k]
  {
    var p := DeleteProps(version, archivedAt, deletedAt, actor);
    var m := ToObject(d);
    SpreadFirst(m, p);
    SpreadFirst(m[p[0].0 := p[0].1], p[1..]);
    SpreadFirst(m[p[0].0 := p[0].1][p[1].0 := p[1].1], p[2..]);
    assert p[2..][1..] == p[3..] && p[3..][1..] == p[4..] && p[4..][1..] == [];
    SpreadFirst(m[p[0].0 := p[0].1][p[1].0 := p[1].1][p[2].0 := p[2].1], p[3..]);
    SpreadFirst(m[p[0].0 := p[0].1][p[1].0 := p[1].1][p[2].0 := p[2].1][p[3].0 := p[3].1], p[4..]);
  }

  /**
   * The update hook over one history collection: fetch, `.toObject()`,
   * count, build the record with version count + 1, save, `next()`.
   */
  function UpdateStep(v: Variant, q: Query, drv: Driver, freshId: Id, now: int, archive: seq<Record>): Step {
    if !drv.findOk then Step(Abort(FindFailed), archive)
    else match FindOne(q.tracked, q.filter)
      case None => Step(Abort(NullDocument), archive)
      case Some(d) =>
        if !drv.countOk then Step(Abort(CountFailed), archive)
        else if !drv.saveOk then Step(Abort(SaveFailed), archive)
        else
          Step(Proceed, archive + [UpdateRecord(d, freshId, CountOrigin(archive, d.id) + 1, now,
                                                UpdateBy(v, Obj(ToObject(d)), q.update))])
  }

  /**
   * The delete hook over one history collection: fetch, `.toObject()`,
   * count, build the record with version = count, save, `next()`. The two
   * `new Date()` calls are two readings of the clock.
   */
  function DeleteStep(v: Variant, q: Query, drv: Driver, archivedAt: int, deletedAt: int, archive: seq<Record>): Step {
    if !drv.findOk then Step(Abort(FindFailed), archive)
    else match FindOne(q.tracked, q.filter)
      case None => Step(Abort(NullDocument), archive)
      case Some(d) =>
        if !drv.countOk then Step(Abort(CountFailed), archive)
        else if !drv.saveOk then Step(Abort(SaveFailed), archive)
        else
          Step(Proceed, archive + [DeleteRecord(d, CountOrigin(archive, d.id), archivedAt, deletedAt,
                                                DeleteBy(v, Obj(ToObject(d))))])
  }

  /** With every driver call resolving and `d` found, the update hook saves its record and proceeds. */
  lemma UpdateStepSaves(v: Variant, q: Query, drv: Driver, freshId: Id, now: int, archive: seq<Record>, d: Doc)
    requires FindOne(q.tracked, q.filter) == Some(d)
    requires drv.findOk && drv.countOk && drv.saveOk
    ensures UpdateStep(v, q, drv, freshId, now, archive)
      == Step(Proceed, archive + [UpdateRecord(d, freshId, CountOrigin(archive, d.id) + 1, now,
                                               UpdateBy(v, Obj(ToObject(d)), q.update))])
  {
  }

  /** With every driver call resolving and `d` found, the delete hook saves its record and proceeds. */
  lemma DeleteStepSaves(v: Variant, q: Query, drv: Driver, archivedAt: int, deletedAt: int, archive: seq<Record>, d: Doc)
    requires FindOne(q.tracked, q.filter) == Some(d)
    requires drv.findOk && drv.countOk && drv.saveOk
    ensures DeleteStep(v, q, drv, archivedAt, deletedAt, archive)
      == Step(Proceed, archive + [DeleteRecord(d, CountOrigin(archive, d.id), archivedAt, deletedAt,
                                               DeleteBy(v, Obj(ToObject(d))))])
  {
  }

  /** The history side of the database: registered history models and their collections. */
  class ArchiveStore {
    var models: set<HistoryKey>
    var archives: map<HistoryKey, seq<Record>>

    constructor ()
      ensures models == {} && archives == map[]
    {
      models := {};
      archives := map[];
    }

    /** The records of one history collection; a collection never written to is empty. */
    function Archive(key: HistoryKey): seq<Record>
      reads this`archives
    {
      if key in archives then archives[key] else []
    }

    /**
     * The update pre hook. The history model is looked up (and so
     * registered) before the `try`; the record is saved only when every
     * driver call has succeeded.
     */
    method OnUpdate(v: Variant, q: Query, drv: Driver, freshId: Id, now: int) returns (next: Next)
      modifies this
      ensures models == old(models) + {HistoryKeyOf(v, q)}
      ensures var s := UpdateStep(v, q, drv, freshId, now, old(Archive(HistoryKeyOf(v, q))));
              next == s.next && archives == if s.next.Proceed? then old(archives)[HistoryKeyOf(v, q) := s.archive] else old(archives)
    {
      var key := HistoryKeyOf(v, q);
      var archive := Archive(key);
      ghost var spec := UpdateStep(v, q, drv, freshId, now, archive);
      models := models + {key};
      if !drv.findOk {
        return Abort(FindFailed);
      }
      var found := FindOne(q.tracked, q.filter);
      if found.None? {
        // `(await findOne(...)).toObject()` throws before the `if (docToUpdate)` guard is reached
        return Abort(NullDocument);
      }
      var doc := ToObject(found.value);
      if !drv.countOk {
        return Abort(CountFailed);
      }
      var version := CountOrigin(archive, found.value.id) + 1;
      var rec := UpdateRecord(found.value, freshId, version, now, UpdateBy(v, Obj(doc), q.update));
      if !drv.saveOk {
        return Abort(SaveFailed);
      }
      assert spec.archive == archive + [rec];
      archives := archives[key := archive + [rec]];
      next := Proceed;
    }

    /** The delete pre hook, in the same order as `OnUpdate`. */
    method OnDelete(v: Variant, q: Query, drv: Driver, archivedAt: int, deletedAt: int) returns (next: Next)
      modifies this
      ensures models == old(models) + {HistoryKeyOf(v, q)}
      ensures var s := DeleteStep(v, q, drv, archivedAt, deletedAt, old(Archive(HistoryKeyOf(v, q))));
              next == s.next && archives == if s.next.Proceed? then old(archives)[HistoryKeyOf(v, q) := s.archive] else old(archives)
    {
      var key := HistoryKeyOf(v, q);
      var archive := Archive(key);
      ghost var spec := DeleteStep(v, q, drv, archivedAt, deletedAt, archive);
      models := models + {key};
      if !drv.findOk {
        return Abort(FindFailed);
      }
      var found := FindOne(q.tracked, q.filter);
      if found.None? {
        return Abort(NullDocument);
      }
      var doc := ToObject(found.value);
      if !drv.countOk {
        return Abort(CountFailed);
      }
      var version := CountOrigin(archive, found.value.id);
      var rec := DeleteRecord(found.value, version, archivedAt, deletedAt, DeleteBy(v, Obj(doc)));
      if !drv.saveOk {
        return Abort(SaveFailed);
      }
      assert spec.archive == archive + [rec];
      archives := archives[key := archive + [rec]];
      next := Proceed;
    }
  }

  /** The hooks one `forEach` registers: one per method name, in order. */
  function HooksFor(names: seq<string>, flow: Flow): (hs: seq<Hook>)
    ensures |hs| == |names|
    ensures forall i :: 0 <= i < |names| ==> hs[i] == Hook(names[i], flow)
  {
    seq(|names|, i requires 0 <= i < |names| => Hook(names[i], flow))
  }

  /** Everything the plugin registers: the update hooks, then the delete hooks. */
  function ArchiverHooks(): seq<Hook> {
    HooksFor(UpdateMethods, UpdateFlow) + HooksFor(DeleteMethods, DeleteFlow)
  }

  /** The two `forEach` loops: `schema.pre(method, hook)` for each update, then each delete method. */
  method RegisterHooks(schema: Schema)
    modifies schema
    ensures schema.hooks == old(schema.hooks) + ArchiverHooks()
    ensures schema.obj == old(schema.obj) && schema.paths == old(schema.paths)
    ensures schema.timestamps == old(schema.timestamps)
  {
    var i := 0;
    while i < |UpdateMethods|
      invariant 0 <= i <= |UpdateMethods|
      invariant schema.hooks == old(schema.hooks) + HooksFor(UpdateMethods[..i], UpdateFlow)
      invariant schema.obj == old(schema.obj) && schema.paths == old(schema.paths)
      invariant schema.timestamps == old(schema.timestamps)
    {
      schema.Pre(UpdateMethods[i], UpdateFlow);
      assert HooksFor(UpdateMethods[..i + 1], UpdateFlow)
          == HooksFor(UpdateMethods[..i], UpdateFlow) + [Hook(UpdateMethods[i], UpdateFlow)];
      i := i + 1;
    }
    assert UpdateMethods[..i] == UpdateMethods;
    var j := 0;
    while j < |DeleteMethods|
      invariant 0 <= j <= |DeleteMethods|
      invariant schema.hooks == old(schema.hooks) + HooksFor(UpdateMethods, UpdateFlow)
                                + HooksFor(DeleteMethods[..j], DeleteFlow)
      invariant schema.obj == old(schema.obj) && schema.paths == old(schema.paths)
      invariant schema.timestamps == old(schema.timestamps)
    {
      schema.Pre(DeleteMethods[j], DeleteFlow);
      assert HooksFor(DeleteMethods[..j + 1], DeleteFlow)
          == HooksFor(DeleteMethods[..j], DeleteFlow) + [Hook(DeleteMethods[j], DeleteFlow)];
      j := j + 1;
    }
    assert DeleteMethods[..j] == DeleteMethods;
  }

  /**
   * The registered hooks split the method names in two: the three update
   * methods get the update body, the three delete methods the delete body,
   * and no other method is hooked.
   */
  lemma ArchiverHooksPartition()
    ensures |ArchiverHooks()| == 6
    ensures forall h :: h in ArchiverHooks() ==> (h.flow == UpdateFlow <==> h.op in UpdateMethods)
    ensures forall h :: h in ArchiverHooks() ==> (h.flow == DeleteFlow <==> h.op in DeleteMethods)
    ensures forall m :: m in UpdateMethods ==> m !in DeleteMethods
    ensures forall m :: m in UpdateMethods ==> Hook(m, UpdateFlow) in ArchiverHooks()
    ensures forall m :: m in DeleteMethods ==> Hook(m, DeleteFlow) in ArchiverHooks()
  {
    var hs := ArchiverHooks();
    assert hs == [Hook("findOneAndUpdate", UpdateFlow), Hook("updateMany", UpdateFlow), Hook("updateOne", UpdateFlow),
                  Hook("deleteOne", DeleteFlow), Hook("deleteMany", DeleteFlow), Hook("findOneAndDelete", DeleteFlow)];
  }
}

=== FILE: js_value.dfy ===
/**
 * The slice of JavaScript values that the archiver's hooks read and write:
 * document fields, update payloads and the operands of the `||` chains that
 * pick the acting user.
 */
module JsValue {

  datatype Option<T> = None | Some(value: T)

  /** An ObjectId, abstracted to a number. */
  type Id = nat

  datatype Value =
    | Undefined
    | Null
    | Bool(b: bool)
    | Num(n: int)
    | Str(s: string)
    | Oid(id: Id)
    | Date(ms: int)
    | Obj(props: map<string, Value>)

  predicate Nullish(v: Value) {
    v.Undefined? || v.Null?
  }

  /** JavaScript truthiness: `undefined`, `null`, `false`, `0` and `""` are falsy. */
  predicate Truthy(v: Value) {
    match v
    case Undefined => false
    case Null => false
    case Bool(b) => b
    case Num(n) => n != 0
    case Str(s) => s != ""
    case _ => true
  }

  /** A plain property read `v.k` on a value that is not nullish; only plain objects have own properties here. */
  function Prop(v: Value, k: string): Value
    requires !Nullish(v)
  {
    if v.Obj? && k in v.props then v.props[k] else Undefined
  }

  /** Optional chaining `v?.k` (and `v?.[k]`): `undefined` when `v` is nullish. */
  function OptGet(v: Value, k: string): (r: Value)
    ensures Nullish(v) ==> r == Undefined
    ensures v.Obj? && k in v.props ==> r == v.props[k]
    ensures v.Obj? && k !in v.props ==> r == Undefined
    ensures !v.Obj? ==> r == Undefined
  {
    if Nullish(v) then Undefined else Prop(v, k)
  }

  /** The operator `a || b`: `a` when it is truthy, otherwise `b`. */
  function Or(a: Value, b: Value): Value {
    if Truthy(a) then a else b
  }

  /**
   * Reference meaning of a chain `t0 || t1 || ... || tn`: the first truthy
   * operand, or the last operand when none is truthy.
   */
  function FirstTruthy(tiers: seq<Value>): (r: Value)
    requires |tiers| > 0
    ensures forall i :: 0 <= i < |tiers| && Truthy(tiers[i]) && (forall j :: 0 <= j < i ==> !Truthy(tiers[j]))
                        ==> r == tiers[i]
    ensures (forall i :: 0 <= i < |tiers| ==> !Truthy(tiers[i])) ==> r == tiers[|tiers| - 1]
    ensures Truthy(r) <==> exists i :: 0 <= i < |tiers| && Truthy(tiers[i])
  {
    if |tiers| == 1 || Truthy(tiers[0]) then tiers[0]
    else
      var rest := FirstTruthy(tiers[1..]);
      assert forall i :: 1 <= i < |tiers| ==> tiers[i] == tiers[1..][i - 1];
      rest
  }

  /** A left-associated chain `(t0 || ... || tn) || x` means the same as the flat chain with `x` appended. */
  lemma {:induction false} FirstTruthySnoc(tiers: seq<Value>, x: Value)
    requires |tiers| > 0
    ensures FirstTruthy(tiers + [x]) == Or(FirstTruthy(tiers), x)
  {
    if |tiers| > 1 && !Truthy(tiers[0]) {
      assert (tiers + [x])[1..] == tiers[1..] + [x];
      FirstTruthySnoc(tiers[1..], x);
    }
  }

  /** The keys an object literal lists after its spread, in order. */
  function ListedKeys(props: seq<(string, Value)>): set<string> {
    set i | 0 <= i < |props| :: props[i].0
  }

  /**
   * An object literal `{ ...base, k1: v1, ..., kn: vn }`: the base's own
   * properties, then each listed property, a later one replacing an earlier
   * one with the same key.
   */
  function Spread(base: map<string, Value>, props: seq<(string, Value)>): map<string, Value>
    decreases |props|
  {
    if props == [] then base else Spread(base[props[0].0 := props[0].1], props[1..])
  }

  /** The first listed property is written over the base before the rest. */
  lemma SpreadFirst(base: map<string, Value>, props: seq<(string, Value)>)
    requires props != []
    ensures Spread(base, props) == Spread(base[props[0].0 := props[0].1], props[1..])
  {
  }

  /**
   * The literal has the base's keys and the listed ones; a key listed last at
   * position i holds the i-th value, and an unlisted key keeps the base's value.
   */
  lemma {:induction false} SpreadLookup(base: map<string, Value>, props: seq<(string, Value)>)
    ensures Spread(base, props).Keys == base.Keys + ListedKeys(props)
    ensures forall k :: k in base && k !in ListedKeys(props) ==> Spread(base, props)[k] == base[k]
    ensures forall i :: 0 <= i < |props| && (forall j :: i < j < |props| ==> props[j].0 != props[i].0)
                        ==> Spread(base, props)[props[i].0] == props[i].1
    decreases |props|
  {
    if props != [] {
      var next := base[props[0].0 := props[0].1];
      var rest := props[1..];
      SpreadLookup(next, rest);
      assert ListedKeys(props) == {props[0].0} + ListedKeys(rest) by {
        forall k | k in ListedKeys(props) ensures k in {props[0].0} + ListedKeys(rest) {
          var i :| 0 <= i < |props| && props[i].0 == k;
          if i > 0 { assert rest[i - 1].0 == k; }
        }
        forall k | k in ListedKeys(rest) ensures k in ListedKeys(props) {
          var i :| 0 <= i < |rest| && rest[i].0 == k;
          assert props[i + 1].0 == k;
        }
      }
      forall i | 0 <= i < |props| && (forall j :: i < j < |props| ==> props[j].0 != props[i].0)
        ensures Spread(base, props)[props[i].0] == props[i].1
      {
        if i == 0 {
          assert forall j :: 0 <= j < |rest| ==> rest[j] == props[j + 1];
        } else {
          assert rest[i - 1] == props[i];
          assert forall j :: i - 1 < j < |rest| ==> rest[j] == props[j + 1];
        }
      }
    }
  }

  /**
   * The property key `options?.userField` becomes: a missing option is the
   * value `undefined`, which JavaScript coerces to the key "undefined".
   */
  function UserKey(userField: Option<string>): (k: string)
    ensures userField.Some? ==> k == userField.value
    ensures userField.None? ==> k == "undefined"
  {
    match userField
    case Some(f) => f
    case None => "undefined"
  }
}

=== FILE: lib_index.dfy ===
/**
 * lib/index.js: the compiled plugin. It prepares the history schema as
 * index.js does and runs the same hooks, with `async`/`await` lowered to a
 * generator and every `?.` lowered to explicit `null`/`void 0` tests.
 */
module LibIndex {
  import opened JsValue
  import opened Documents
  import opened Attribution
  import opened Schemas
  import opened Hooks
  import RootIndexJs

  /** The plugin entry point: clone plus archive fields, then the six hooks (run as `Variant.LibJs`); `history` is the schema the hooks capture, as the plugin returns nothing. */
  method MongooseArchiver(schema: Schema) returns (history: Schema)
    modifies schema
    ensures fresh(history)
    ensures history.paths == WithArchiveFields(old(schema.paths))
    ensures history.obj == old(schema.obj) && history.timestamps == old(schema.timestamps) && history.hooks == old(schema.hooks)
    ensures schema.hooks == old(schema.hooks) + ArchiverHooks()
    ensures schema.paths == old(schema.paths) && schema.obj == old(schema.obj) && schema.timestamps == old(schema.timestamps)
  {
    history := RootIndexJs.PrepareHistorySchema(schema);
    RegisterHooks(schema);
  }

  /**
   * The lowering changes nothing: on every query, driver outcome, clock
   * reading and history, the compiled hooks take the same step as index.js.
   */
  lemma CompiledHooksMatchSource(q: Query, drv: Driver, freshId: Id, at1: int, at2: int, archive: seq<Record>)
    ensures UpdateStep(LibJs, q, drv, freshId, at1, archive) == UpdateStep(RootJs, q, drv, freshId, at1, archive)
    ensures DeleteStep(LibJs, q, drv, at1, at2, archive) == DeleteStep(RootJs, q, drv, at1, at2, archive)
    ensures HistoryKeyOf(LibJs, q) == HistoryKeyOf(RootJs, q)
  {
    match FindOne(q.tracked, q.filter)
    case None =>
    case Some(d) =>
      LibMatchesOptionalChaining(q.update, Obj(ToObject(d)));
  }
}

=== FILE: root_index_js.dfy ===
/**
 * index.js: `mongooseArchiver(schema)`. The history schema is a clone of the
 * tracked schema (required flags included) extended with the archive
 * fields; both hooks register the history model on the query's connection.
 */
module RootIndexJs {
  import opened Schemas
  import opened Hooks

  /** `schema.clone()` then `historySchema.add(...)`; the tracked schema is not changed. */
  method PrepareHistorySchema(schema: Schema) returns (history: Schema)
    ensures fresh(history)
    ensures history.paths == WithArchiveFields(schema.paths)
    ensures history.obj == schema.obj && history.timestamps == schema.timestamps && history.hooks == schema.hooks
  {
    history := schema.Clone();
    history.Add(ArchiveFields());
  }

  /** The plugin entry point: history schema first, then the six hooks (run as `Variant.RootJs`); `history` is the schema the hooks capture, as the plugin returns nothing. */
  method MongooseArchiver(schema: Schema) returns (history: Schema)
    modifies schema
    ensures fresh(history)
    ensures history.paths == WithArchiveFields(old(schema.paths))
    ensures history.obj == old(schema.obj) && history.timestamps == old(schema.timestamps) && history.hooks == old(schema.hooks)
    ensures schema.hooks == old(schema.hooks) + ArchiverHooks()
    ensures schema.paths == old(schema.paths) && schema.obj == old(schema.obj) && schema.timestamps == old(schema.timestamps)
  {
    history := PrepareHistorySchema(schema);
    RegisterHooks(schema);
  }

  /**
   * `this.mongooseCollection.conn.model(...)`: the history lives on the
   * query's own connection, so two connections keep separate histories.
   */
  lemma HistoryPerConnection(q1: Query, q2: Query)
    requires q1.modelName == q2.modelName
    ensures HistoryKeyOf(RootJs, q1).name == q1.modelName + "_history"
    ensures HistoryKeyOf(RootJs, q1) == HistoryKeyOf(RootJs, q2) <==> q1.conn == q2.conn
  {
  }
}

=== FILE: root_index_ts.dfy ===
/**
 * index.ts: `mongooseArchiver(schema)`. The history schema is built anew from
 * the tracked schema's definition object with timestamps off, then extended
 * with the archive fields; both hooks register the history model on the
 * default (global) connection.
 */
module RootIndexTs {
  import opened Schemas
  import opened Hooks

  /**
   * `new mongoose.Schema(schema.obj, { timestamps: false })` then
   * `historySchema.add(...)`: the definition's paths keep their required
   * flags, paths added to the tracked schema after construction are not
   * carried over, and no hook is copied.
   */
  method PrepareHistorySchema(schema: Schema) returns (history: Schema)
    ensures fresh(history)
    ensures history.paths == WithArchiveFields(schema.obj)
    ensures history.obj == schema.obj && !history.timestamps && history.hooks == []
  {
    history := new Schema(schema.obj, false);
    history.Add(ArchiveFields());
  }

  /** The plugin entry point: history schema first, then the six hooks (run as `Variant.RootTs`); `history` is the schema the hooks capture, as the plugin returns nothing. */
  method MongooseArchiver(schema: Schema) returns (history: Schema)
    modifies schema
    ensures fresh(history)
    ensures history.paths == WithArchiveFields(old(schema.obj))
    ensures history.obj == old(schema.obj) && !history.timestamps && history.hooks == []
    ensures schema.hooks == old(schema.hooks) + ArchiverHooks()
    ensures schema.paths == old(schema.paths) && schema.obj == old(schema.obj) && schema.timestamps == old(schema.timestamps)
  {
    history := PrepareHistorySchema(schema);
    RegisterHooks(schema);
  }

  /**
   * A path that is neither in the tracked schema's definition object nor an
   * archive field (one added by `schema.add` after construction, say) is
   * missing from the history schema, and a required
   * definition path stays required there.
   */
  lemma HistoryFollowsDefinition(obj: Paths)
    ensures forall k :: k !in obj && k !in ArchiveFields() ==> k !in WithArchiveFields(obj)
    ensures forall k :: k in obj && k !in ArchiveFields() ==> WithArchiveFields(obj)[k] == obj[k]
  {
  }

  /**
   * The history model is `mongoose.model(...)` on the default connection:
   * queries on two connections with the same model name share one history.
   */
  lemma HistorySharedAcrossConnections(q1: Query, q2: Query)
    requires q1.modelName == q2.modelName
    ensures HistoryKeyOf(RootTs, q1) == HistoryKeyOf(RootTs, q2)
            == HistoryKey(DefaultConnection, q1.modelName + "_history")
  {
  }
}

=== FILE: schemas.dfy ===
/**
 * The part of a Mongoose schema the plugin works with: its definition object,
 * its paths with their required flags, the `timestamps` option and the list of
 * registered pre hooks. `clone`, `add` and `pre` are modelled as plain copies,
 * map unions and appends.
 */
module Schemas {
  import opened JsValue

  datatype PathType = ObjectIdType | NumberType | DateType | StringType | MixedType

  datatype Default = NoDefault | Constant(v: Value) | CurrentDate

  /** One schema path: its type, its required flag and its default. */
  datatype SchemaPath = SchemaPath(ty: PathType, required: bool, default: Default)

  type Paths = map<string, SchemaPath>

  /** Which of the two hook bodies a registration installs. */
  datatype Flow = UpdateFlow | DeleteFlow

  /** `schema.pre(method, fn)`: the query method name and the hook body. */
  datatype Hook = Hook(op: string, flow: Flow)

  class Schema {
    /** The definition object the schema was built from (`schema.obj`). */
    var obj: Paths
    /** Every path of the schema, including those added after construction. */
    var paths: Paths
    var timestamps: bool
    var hooks: seq<Hook>

    /** `new Schema(obj, { timestamps })`. */
    constructor (obj: Paths, timestamps: bool)
      ensures this.obj == obj && paths == obj && this.timestamps == timestamps && hooks == []
    {
      this.obj := obj;
      this.paths := obj;
      this.timestamps := timestamps;
      this.hooks := [];
    }

    /** `schema.clone()`: a new schema with the same definition, paths, options and hooks. */
    method Clone() returns (c: Schema)
      ensures fresh(c)
      ensures c.obj == obj && c.paths == paths && c.timestamps == timestamps && c.hooks == hooks
    {
      c := new Schema(obj, timestamps);
      c.paths := paths;
      c.hooks := hooks;
    }

    /** `schema.add(fields)`: a path given again replaces the earlier one. */
    method Add(fields: Paths)
      modifies this
      ensures paths == old(paths) + fields
      ensures obj == old(obj) && timestamps == old(timestamps) && hooks == old(hooks)
    {
      paths := paths + fields;
    }

    /** `schema.pre(method, fn)`. */
    method Pre(name: string, flow: Flow)
      modifies this
      ensures hooks == old(hooks) + [Hook(name, flow)]
      ensures obj == old(obj) && paths == old(paths) && timestamps == old(timestamps)
    {
      hooks := hooks + [Hook(name, flow)];
    }
  }

  const UpdateMethods: seq<string> := ["findOneAndUpdate", "updateMany", "updateOne"]
  const DeleteMethods: seq<string> := ["deleteOne", "deleteMany", "findOneAndDelete"]

  /** The fields every variant adds to the history schema; `version` alone is required. */
  function ArchiveFields(): (f: Paths)
    ensures f.Keys == {"origin", "version", "archived.at", "archived.by", "deleted.at", "deleted.by"}
    ensures forall k :: k in f ==> (f[k].required <==> k == "version")
    ensures f["version"] == SchemaPath(NumberType, true, Constant(Num(0)))
  {
    map[
      "origin" := SchemaPath(ObjectIdType, false, NoDefault),
      "version" := SchemaPath(NumberType, true, Constant(Num(0))),
      "archived.at" := SchemaPath(DateType, false, CurrentDate),
      "archived.by" := SchemaPath(ObjectIdType, false, NoDefault),
      "deleted.at" := SchemaPath(DateType, false, NoDefault),
      "deleted.by" := SchemaPath(ObjectIdType, false, NoDefault)
    ]
  }

  /**
   * A history schema's paths: the base paths with the archive fields added.
   * Nothing is stripped here, so a required base path stays required.
   */
  function WithArchiveFields(base: Paths): (h: Paths)
    ensures h.Keys == base.Keys + ArchiveFields().Keys
    ensures forall k :: k in h ==> (h[k].required <==> k == "version" || (k in base && base[k].required && k !in ArchiveFields()))
    ensures forall k :: k in base && k !in ArchiveFields() ==> h[k] == base[k]
  {
    base + ArchiveFields()
  }

  /** `modelName + "_history"`: the name under which the history model is registered. */
  function HistoryModelName(modelName: string): (name: string)
    ensures |name| == |modelName| + 8
    ensures name[..|modelName|] == modelName && name[|modelName|..] == "_history"
  {
    modelName + "_history"
  }
}

=== FILE: src_index.dfy ===
/**
 * src/index.ts: `mongooseArchiver(schema, options)`. The history schema is a
 * clone of the tracked schema whose required flags are cleared in place,
 * then extended with the archive fields; the hooks read the history model
 * from the query's connection and attribute updates to the document's
 * `options.userField` before the payload.
 */
module SrcIndex {
  import opened JsValue
  import opened Documents
  import opened Attribution
  import opened Schemas
  import opened Hooks
  import opened HookProperties

  /** The paths with every required flag cleared and nothing else touched. */
  function Unrequired(paths: Paths): (r: Paths)
    ensures r.Keys == paths.Keys
    ensures forall k :: k in r ==> !r[k].required
    ensures forall k :: k in paths ==> r[k].ty == paths[k].ty && r[k].default == paths[k].default
    ensures forall k :: k in paths && !paths[k].required ==> r[k] == paths[k]
  {
    map k | k in paths :: paths[k].(required := false)
  }

  /**
   * The `for (const path in historySchema.paths)` loop: each required path
   * gets `required(false)`; no path is added or removed.
   */
  method StripRequired(s: Schema)
    modifies s
    ensures s.paths == Unrequired(old(s.paths))
    ensures s.obj == old(s.obj) && s.timestamps == old(s.timestamps) && s.hooks == old(s.hooks)
  {
    var todo := s.paths.Keys;
    while todo != {}
      invariant s.paths.Keys == old(s.paths).Keys
      invariant todo <= s.paths.Keys
      invariant forall k :: k in s.paths && k !in todo ==> s.paths[k] == old(s.paths)[k].(required := false)
      invariant forall k :: k in todo ==> s.paths[k] == old(s.paths)[k]
      invariant s.obj == old(s.obj) && s.timestamps == old(s.timestamps) && s.hooks == old(s.hooks)
      decreases todo
    {
      var path :| path in todo;
      if s.paths[path].required {
        s.paths := s.paths[path := s.paths[path].(required := false)];
      }
      todo := todo - {path};
    }
  }

  /** The history schema's paths: the cloned paths, unrequired, plus the archive fields. */
  function HistoryPaths(paths: Paths): Paths {
    Unrequired(paths) + ArchiveFields()
  }

  /**
   * After preparation `version` is the one required path; every tracked
   * path is kept, and `version` is a number defaulting to 0.
   */
  lemma OnlyVersionRequired(paths: Paths)
    ensures HistoryPaths(paths).Keys == paths.Keys + ArchiveFields().Keys
    ensures forall k :: k in HistoryPaths(paths) ==> (HistoryPaths(paths)[k].required <==> k == "version")
    ensures HistoryPaths(paths)["version"] == SchemaPath(NumberType, true, Constant(Num(0)))
  {
  }

  /** `schema.clone()`, the stripping loop, then `historySchema.add(...)`; the tracked schema is not changed. */
  method PrepareHistorySchema(schema: Schema) returns (history: Schema)
    ensures fresh(history)
    ensures history.paths == HistoryPaths(schema.paths)
    ensures history.obj == schema.obj && history.timestamps == schema.timestamps && history.hooks == schema.hooks
  {
    history := schema.Clone();
    StripRequired(history);
    history.Add(ArchiveFields());
  }

  /**
   * The plugin entry point: the history schema is prepared first, then the
   * update and delete hooks are registered on the tracked schema. The hooks
   * run as `Variant.SrcTs(userField)`. The plugin itself returns nothing;
   * `history` is the schema its hooks capture and register.
   */
  method MongooseArchiver(schema: Schema, userField: Option<string>) returns (history: Schema)
    modifies schema
    ensures fresh(history)
    ensures history.paths == HistoryPaths(old(schema.paths))
    ensures history.obj == old(schema.obj) && history.timestamps == old(schema.timestamps) && history.hooks == old(schema.hooks)
    ensures schema.hooks == old(schema.hooks) + ArchiverHooks()
    ensures schema.paths == old(schema.paths) && schema.obj == old(schema.obj) && schema.timestamps == old(schema.timestamps)
  {
    history := PrepareHistorySchema(schema);
    RegisterHooks(schema);
  }

  /**
   * The update record's `archivedBy`: the first truthy of the document's
   * user field, the payload's `updatedBy`, `$set.updatedBy` and `createdBy`.
   */
  lemma UpdateArchivedBy(userField: Option<string>, q: Query, freshId: Id, now: int, archive: seq<Record>, d: Doc)
    requires FindOne(q.tracked, q.filter) == Some(d)
    ensures var r := UpdateStep(SrcTs(userField), q, AllResolve, freshId, now, archive).archive[|archive|];
      && "archivedBy" in r
      && r["archivedBy"]
        == FirstTruthy([OptGet(Obj(ToObject(d)), UserKey(userField)),
                        OptGet(q.update, "updatedBy"),
                        OptGet(OptGet(q.update, "$set"), "updatedBy"),
                        OptGet(q.update, "createdBy")])
  {
    UpdateSnapshot(SrcTs(userField), q, freshId, now, archive, d);
    SrcUpdateByFirstTruthy(Obj(ToObject(d)), userField, q.update);
  }

  /**
   * The delete record's `archivedBy` and `deletedBy`: both the first truthy
   * of the document's user field, `updatedBy` and `createdBy`.
   */
  lemma DeleteArchivedBy(userField: Option<string>, q: Query, archivedAt: int, deletedAt: int, archive: seq<Record>, d: Doc)
    requires FindOne(q.tracked, q.filter) == Some(d)
    ensures var r := DeleteStep(SrcTs(userField), q, AllResolve, archivedAt, deletedAt, archive).archive[|archive|];
      && "archivedBy" in r && "deletedBy" in r
      && r["archivedBy"] == r["deletedBy"]
      && r["deletedBy"] == FirstTruthy([OptGet(Obj(ToObject(d)), UserKey(userField)),
                                        OptGet(Obj(ToObject(d)), "updatedBy"),
                                        OptGet(Obj(ToObject(d)), "createdBy")])
  {
    DeleteSnapshot(SrcTs(userField), q, archivedAt, deletedAt, archive, d);
    SrcDeleteByFirstTruthy(Obj(ToObject(d)), userField);
  }

  /** Both hooks resolve the history model `<modelName>_history` on the query's own connection. */
  lemma HistoryOnQueryConnection(userField: Option<string>, q: Query)
    ensures HistoryKeyOf(SrcTs(userField), q) == HistoryKey(q.conn, q.modelName + "_history")
  {
  }
}
